=== FILE: README.md ===
# Number-to-character carousel, modelled in Dafny

The page in `app/page.jsx` shows a vertical carousel with one card per integer.
In letter mode there are 26 cards, A to Z. In extended mode there are 130 cards,
one per code 0..129, taken from a table that names the ASCII control codes
("NUL (Null)" … "US (Unit Separator)", "DEL (Delete)"), calls 32 "SPACE", and
shows every other code as its own character. Each card splits its name at the
first " (" into a main glyph and an optional description. Slides fade with
distance from the active slide. ArrowDown/ArrowUp step the carousel once per
key press: the `isHolding` flag swallows key repeats until a keyup.

Modules, one per concern of the page:

- `Options`: the `Option` type.
- `JsStrings`: the JavaScript string operations the page uses, on UTF-16 code units.
  These are `String.fromCharCode` (ToUint16), `trim` (the ECMAScript WhiteSpace and
  LineTerminator set), `indexOf`, `split` with a non-empty separator, and a `replace`
  whose pattern is a string (first occurrence only).
- `CharTables`: `normalMap`, `unicodeMap` and `getUnicodeChar`. It includes the
  `toString(16).toUpperCase()` label of the table's fallback branch.
- `NameParser`: `parseUnicodeChar` and its inverse `Compose`.
- `SlideText`: what each rendered card shows (`NumToTextMap`), proved entry by
  entry over the tables.
- `Opacity`: `calculateOpacity`, computed exactly over `real`.
- `Keyboard`: `moveCarousel`, `handleKeyDown`, `handleKeyUp`, and runs of key and
  carousel events.
- `Listener`: how the effect registers the key handler, as written and corrected
  (see Findings).

The table's control names are stored as (mnemonic, description) pairs. They are
displayed as `mnemonic + " (" + description + ")"`, which gives the same strings
as the source's literals.

Two facts about the table follow from the code:

- Code 32 is "SPACE" with no description, so only 0–31 and 127 carry one.
- The `i >= 33 && i <= 130` guard makes the `U+` fallback dead inside the 130-entry table.

## Model

| member | source | states |
|---|---|---|
| JsStrings.FromCharCode | app/page.jsx:9 | `String.fromCharCode` yields one code unit, the argument modulo 2^16 (ToUint16), and the argument itself when it is in range |
| JsStrings.Trim | app/page.jsx:163-164 | the trimmed string has no leading or trailing white space, is a contiguous slice of the input, and everything cut off on either side is white space |
| JsStrings.TrimIdempotent | app/page.jsx:163-164 | trimming twice is trimming once |
| JsStrings.IndexOf | app/page.jsx:161 | finds the first position where the separator occurs, and finds none exactly when the separator does not occur |
| JsStrings.Split | app/page.jsx:161 | `split` returns at least one piece; joining the pieces with the separator gives back the input; no piece contains the separator; a single piece is returned exactly when the separator does not occur |
| JsStrings.SplitCutsAtFirst | app/page.jsx:161 | when `split` cuts, the first piece ends at the leftmost occurrence of the separator |
| JsStrings.ReplaceFirst | app/page.jsx:164 | replacing a string pattern leaves a string without the pattern unchanged, and otherwise changes the length by exactly one replacement |
| JsStrings.ReplaceFirstReplacesFirst | app/page.jsx:164 | where the pattern first occurs at k, the result is the text before k, the replacement, and the text after the occurrence |
| CharTables.NormalMapIsAlphabet | app/page.jsx:9 | the letter table has 26 entries and entry i is the single letter `A`+i |
| CharTables.BuildLetters | app/page.jsx:9 | the first n letters of the table: entry i is `String.fromCharCode(65 + i)` |
| CharTables.SlideCount | app/page.jsx:81 | the table size is 130 exactly in extended mode and 26 otherwise (`unicode ? 130 : 26`, also the render loop's length at line 138) |
| CharTables.HexUpper | app/page.jsx:49 | `toString(16).toUpperCase()` gives a non-empty string of upper-case hex digits with no leading zero whose value is the number |
| CharTables.EntryName | app/page.jsx:14-49 | every name is non-empty; codes 33..130 other than 127 are their own single character; past 130 the name is `U+` followed by hex digits whose value is the code |
| CharTables.BuildEntries | app/page.jsx:12-50 | the table has exactly n entries, and entry i has code i and the name the initialiser computes for i |
| CharTables.FindCode | app/page.jsx:55 | `find` returns the first entry with the code, or nothing exactly when no entry has it |
| CharTables.GetUnicodeChar | app/page.jsx:54-57 | for 0..129 the result is the table's name for that code; for any other index it is the raw `fromCharCode` character |
| NameParser.ParseUnicodeChar | app/page.jsx:160-166 | main and description come out trimmed; a description exists only if the name contains " ("; a name without " (" parses to its trimmed self with no description |
| NameParser.SplitJoin | app/page.jsx:161 | splitting a join of separator-free pieces gives the pieces back |
| NameParser.ParseWithoutSeparator | app/page.jsx:161-164 | a name without " (" is trimmed and has a null description |
| NameParser.ParseSplitsAtFirstSeparator | app/page.jsx:161-164 | the name is cut at the first " ("; only the first ")" after it is dropped, and any later text stays in the description |
| NameParser.ParseAtFirstSeparator | app/page.jsx:161-164 | for any text after the first " (": main is the trimmed text before it, and the description is the next piece with its first ")" removed and trimmed, or null when that piece is empty |
| NameParser.ParseBetweenSeparators | app/page.jsx:161-164 | the description is the text between the first and the second " (", with its first ")" removed and trimmed; everything after the second " (" is dropped |
| NameParser.ParseWithoutCloseParen | app/page.jsx:161-164 | a description with no ")" is only trimmed |
| NameParser.SecondSeparatorExample | app/page.jsx:161-164 | "A (b) (c)" parses to main "A" and description "b" |
| NameParser.MissingCloseParenExample | app/page.jsx:161-164 | "A (b" parses to main "A" and description "b" |
| NameParser.FirstCloseParen | app/page.jsx:164 | `replace(')', '')` removes the first ")" only |
| NameParser.ParseEmptyDescription | app/page.jsx:161-164 | an empty second piece is falsy: a name ending in " (" or holding " ( (" has a null description |
| NameParser.ParseCompose | app/page.jsx:160-166 | parsing the display string of a well-formed (main, description) pair gives the pair back |
| NameParser.ComposeParse | app/page.jsx:160-166 | for names of the form the table uses, composing the parse rebuilds the name |
| SlideText.ControlNamesPlain | app/page.jsx:15-48 | the table lists 32 control names before DEL; every mnemonic is upper-case letters and digits and no description holds a parenthesis |
| SlideText.ParseControlEntry | app/page.jsx:15-48 | a control code's name parses into its mnemonic and its description |
| SlideText.ParseTableEntry | app/page.jsx:12-57 | for every code in the table, a description appears exactly for the control codes 0–31 and 127, and their names round-trip; 32 shows "SPACE"; every other code shows its own single character |
| SlideText.CodePointLabelUnreachable | app/page.jsx:49 | no entry of the table, nor index 130, is ever labelled with the `U+` fallback |
| SlideText.CodePointLabelBeyondTable | app/page.jsx:49 | past 130 the fallback would give `U+` followed by hex digits whose value is the index |
| SlideText.SlideLabel | app/page.jsx:169 | a card has a name exactly in extended mode or for a letter index 0..25; in extended mode it is `getUnicodeChar(num)` |
| SlideText.SlideCard | app/page.jsx:169 | a card exists exactly in extended mode or for a letter index 0..25 (elsewhere `parseUnicodeChar(undefined)` throws), and it is the parse of the slide's name |
| SlideText.RenderedSlidesHaveCards | app/page.jsx:138-148 | every slide the carousel renders has a card; a letter card shows its letter with no description; an extended card has a description exactly for a control code |
| SlideText.BellExample | app/page.jsx:22 | code 7 is "BEL (Bell)" and parses to main "BEL" with description "Bell" |
| SlideText.SingleCharacterExamples | app/page.jsx:49 | "A" parses to itself, and code 40 shows a lone "(" with no description |
| Opacity.Weight | app/page.jsx:66-70 | the opacity lies in [0, 1]; it is 1 exactly at the active slide and 0 exactly at distance 5 or more; it is always a multiple of 1/5 |
| Opacity.WeightIsClampedDecay | app/page.jsx:66-70 | the opacity is max(0, 1 - d/5) for distance d |
| Opacity.WeightSymmetric | app/page.jsx:67 | the opacity depends only on the unordered pair of indices |
| Opacity.WeightShift | app/page.jsx:67 | the opacity depends only on the distance, not on where the pair sits |
| Opacity.WeightMonotone | app/page.jsx:66-70 | a slide nearer the active one is never more transparent |
| Opacity.WeightEndPoints | app/page.jsx:68-69 | 1 at the active slide, 0.8 next to it, 0 at distance five and beyond |
| Keyboard.MoveCarousel | app/page.jsx:79-86 | nothing without a carousel handle; a next step exactly for "down" below the last index; a previous step exactly for "up" above 0; every step starts from the active index |
| Keyboard.MoveStaysInTable | app/page.jsx:79-86 | from an index inside the table, a step is asked for exactly when the carousel handle is attached and the step's target is inside the table; every step asked for lands inside the table |
| Keyboard.HandleKeyDown | app/page.jsx:89-98 | while held, a keydown changes nothing; an unheld ArrowDown sets the hold and calls `moveCarousel('down')`, an unheld ArrowUp sets it and calls `moveCarousel('up')`; other keys change nothing |
| Keyboard.HandleKeyUp | app/page.jsx:100-102 | any keyup clears the hold and nothing else |
| Keyboard.Step | app/page.jsx:89-105 | one event: a keydown does exactly what `handleKeyDown` does and a keyup what `handleKeyUp` does; only a slide change moves the active index; only the carousel handle attaches; a step needs an unheld keydown with the handle attached |
| Keyboard.Run | app/page.jsx:89-135 | a run asks for at most one step per event, none without a keydown, and none before the carousel handle arrives |
| Keyboard.RunSingle | app/page.jsx:89-105 | a run of one event ends where that event leaves the page and asks for exactly the step the event asks for |
| Keyboard.RunAppend | app/page.jsx:89-105 | a run of two event sequences is the first run followed by the second from where the first left the page; the steps asked for are those of the first, then those of the second, in order |
| Keyboard.OneStepPerPress | app/page.jsx:89-102 | with no keyup in between, any number of keydowns ask for at most one step, and none if a key is already held |
| Keyboard.StepsBoundedByKeyUps | app/page.jsx:89-102 | over any run, the steps asked for are at most the keyups plus one |
| Keyboard.RequestsStayInTable | app/page.jsx:79-102 | with a fixed table size and slide changes inside it, the active index stays inside the table and every step targets a slide inside it |
| Keyboard.HeldArrowDownExample | app/page.jsx:89-98 | holding ArrowDown on slide 0 for three keydowns asks for exactly one next step |
| Keyboard.PressReleasePressExample | app/page.jsx:89-102 | press, release, slide change and press again ask for two steps |
| Listener.StepAsWritten | app/page.jsx:104-112 | a switch flip changes only the switch; every other input runs the key and carousel handlers with the table the registered handler closed over; the handler is re-registered with the current switch position exactly on a slide change to a new index |
| Listener.Step | app/page.jsx:104-112 | the corrected handler always measures the table on screen |
| Listener.AgreeWhileRegistered | app/page.jsx:104-112 | while the registered handler is current, as written and corrected behave alike |
| Listener.ArrowDownUsesShownTable | app/page.jsx:79-98 | corrected: ArrowDown asks for a step exactly when there is a next slide in the table on screen |
| Listener.StaleTableSize | app/page.jsx:104-119 | as written, letter slide 25 plus a switch to extended mode leaves ArrowDown asking for nothing; the corrected listener asks for slide 26 |
| Listener.StaleIndexAsWritten | app/page.jsx:79-119 | as written, switching from extended slide 100 to letters keeps the index at 100 and keeps the handler measuring 130 slides: ArrowDown asks for slide 101 and ArrowUp for slide 99, both outside the 26 letters |
| Listener.StaleIndexCorrected | app/page.jsx:79-119 | with the corrected listener the same switch leaves ArrowDown asking for nothing, but the index is still not clamped, so ArrowUp asks for slide 99, outside the letters |

## Left out

- JSX layout, Mantine components and fonts are presentation only. A card is modelled as the main text and optional description it shows; the slide number it prints is the index itself.
- The `Math.pow` styling (lines 74-75 and 142-143) squares or cubes the opacity for CSS. Only `calculateOpacity` is modelled.
- `window.addEventListener` and its cleanup are modelled only as which handler is registered (`Listener`).
- The carousel widget (Embla) is outside the model. A step is a request, and the carousel reports the new index through `onSlideChange`. Dragging and scrolling arrive only as slide changes.
- Opacity is computed over exact reals. JavaScript's floating-point `1 - d/5` is not modelled.
- JsStrings.Split: does not model `split` with an empty separator. The page only splits on " (".
- JsStrings.Js: a literal character outside the 16-bit range becomes U+FFFD instead of a surrogate pair. All literals on the page are ASCII.
- JsStrings.ReplaceFirst: its own contract gives only the length. The content is stated by `JsStrings.ReplaceFirstReplacesFirst`.
- JsStrings.ReplaceFirst: inserts the replacement literally; JavaScript's `$&`, `` $` ``, `$'` and `$$` patterns in a replacement string are not expanded. The page replaces with `''`, which has none.
- Keyboard.RequestsStayInTable: holds only while the table size is fixed. Flipping the switch does not clamp `activeIndex` (see `Listener.StaleIndexAsWritten` and `Listener.StaleIndexCorrected`).

## Findings

| source | as written | input that shows it | evidently intended | confidence | as-written member | corrected member |
|---|---|---|---|---|---|---|
| app/page.jsx:104-112 | the effect depends only on `[activeIndex]`, so `handleKeyDown` keeps the `unicode` of the render that registered it | letter mode, slide 25; flip the switch to extended mode; press ArrowDown. Also: extended mode, slide 100; flip to letters; press ArrowDown, which asks for slide 101 | ArrowDown moves to slide 26 of the 130-entry table; after flipping to letters it does not step past the letter table | medium, not executed | Listener.StaleTableSize (with Listener.StepAsWritten, Listener.StaleIndexAsWritten) | Listener.Step (with Listener.ArrowDownUsesShownTable, Listener.StaleIndexCorrected) |

=== FILE: char_tables.dfy ===
/**
  The page's two static tables and the lookup over the larger one
  (app/page.jsx lines 9-57).
*/
module CharTables {
  import opened Options
  import opened JsStrings

  /** The number of slides the carousel shows: 130 in extended mode, 26 for letters. */
  function SlideCount(unicode: bool): (n: nat)
    ensures n == 26 || n == 130
    ensures n == 130 <==> unicode
  {
    if unicode then 130 else 26
  }

  // ------------------------------------------------------- letter table

  /** `normalMap`: the table `Array.from` builds with 26 entries. */
  const NormalMap: seq<JsString> := BuildLetters(26)

  /** The first n entries of the letter table: entry i is `String.fromCharCode(65 + i)`. */
  function BuildLetters(n: nat): (t: seq<JsString>)
    ensures |t| == n
    ensures forall i :: 0 <= i < n ==> t[i] == FromCharCode(65 + i)
  {
    if n == 0 then [] else
      var t := BuildLetters(n - 1);
      var e := FromCharCode(65 + n - 1);
      assert forall i :: 0 <= i < n - 1 ==> (t + [e])[i] == t[i];
      t + [e]
  }

  const Alphabet: string := "ABCDEFGHIJKLMNOPQRSTUVWXYZ"

  /** The letter table is the alphabet, one letter per entry, in order. */
  lemma NormalMapIsAlphabet()
    ensures |NormalMap| == |Alphabet| == 26
    ensures forall i :: 0 <= i < 26 ==> |NormalMap[i]| == 1 && NormalMap[i][0] as int == Alphabet[i] as int
  {
  }

  // ----------------------------------------------------- extended table

  /** A control code's mnemonic and the description shown after it. */
  datatype ControlName = ControlName(mnemonic: string, description: string)

  /** The names the source gives codes 0 to 31, in order. */
  const ControlNames: seq<ControlName> := [
    ControlName("NUL", "Null"),
    ControlName("SOH", "Start of Heading"),
    ControlName("STX", "Start of Text"),
    ControlName("ETX", "End of Text"),
    ControlName("EOT", "End of Transmission"),
    ControlName("ENQ", "Enquiry"),
    ControlName("ACK", "Acknowledge"),
    ControlName("BEL", "Bell"),
    ControlName("BS", "Backspace"),
    ControlName("TAB", "Horizontal Tab"),
    ControlName("LF", "Line Feed"),
    ControlName("VT", "Vertical Tab"),
    ControlName("FF", "Form Feed"),
    ControlName("CR", "Carriage Return"),
    ControlName("SO", "Shift Out"),
    ControlName("SI", "Shift In"),
    ControlName("DLE", "Data Link Escape"),
    ControlName("DC1", "Device Control 1"),
    ControlName("DC2", "Device Control 2"),
    ControlName("DC3", "Device Control 3"),
    ControlName("DC4", "Device Control 4"),
    ControlName("NAK", "Negative Acknowledge"),
    ControlName("SYN", "Synchronous Idle"),
    ControlName("ETB", "End of Transmission Block"),
    ControlName("CAN", "Cancel"),
    ControlName("EM", "End of Medium"),
    ControlName("SUB", "Substitute"),
    ControlName("ESC", "Escape"),
    ControlName("FS", "File Separator"),
    ControlName("GS", "Group Separator"),
    ControlName("RS", "Record Separator"),
    ControlName("US", "Unit Separator")
  ]

  const DeleteName: ControlName := ControlName("DEL", "Delete")

  /** The separator between a name's main part and its description. */
  const Sep: JsString := [0x20, 0x28]

  const CloseParen: CodeUnit := 0x29

  /** How a control code is written in the table: "MNEMONIC (Description)". */
  function Display(c: ControlName): (r: JsString)
  {
    Js(c.mnemonic) + Sep + Js(c.description) + [CloseParen]
  }

  /** The codes the table names as control characters. */
  predicate IsControlCode(i: int) {
    0 <= i < 32 || i == 127
  }

  /** An upper-case hexadecimal digit for 0 <= d < 16. */
  function HexDigit(d: nat): (u: CodeUnit)
    requires d < 16
  {
    if d < 10 then (0x30 + d) as CodeUnit else (0x41 + d - 10) as CodeUnit
  }

  predicate IsHexDigit(u: CodeUnit) {
    (0x30 <= u <= 0x39) || (0x41 <= u <= 0x46)
  }

  /** The value of one upper-case hexadecimal digit. */
  function DigitValue(u: CodeUnit): (d: nat)
    requires IsHexDigit(u)
    ensures d < 16
  {
    if u <= 0x39 then (u - 0x30) as nat else (u - 0x41 + 10) as nat
  }

  /** The number a string of upper-case hexadecimal digits denotes. */
  function HexValue(s: JsString): nat
    requires forall i :: 0 <= i < |s| ==> IsHexDigit(s[i])
  {
    if |s| == 0 then 0 else HexValue(s[..|s| - 1]) * 16 + DigitValue(s[|s| - 1])
  }

  /** `n.toString(16).toUpperCase()`: base-16 digits without leading zeros, read back as n. */
  function HexUpper(n: nat): (r: JsString)
    ensures 0 < |r|
    ensures forall i :: 0 <= i < |r| ==> IsHexDigit(r[i])
    ensures |r| > 1 ==> r[0] != 0x30
    ensures HexValue(r) == n
  {
    if n < 16 then [HexDigit(n)]
    else
      HexValueSnoc(HexUpper(n / 16), HexDigit(n % 16));
      HexUpper(n / 16) + [HexDigit(n % 16)]
  }

  /** Appending a digit multiplies the value by 16 and adds the digit. */
  lemma HexValueSnoc(s: JsString, u: CodeUnit)
    requires forall i :: 0 <= i < |s| ==> IsHexDigit(s[i])
    requires IsHexDigit(u)
    ensures forall i :: 0 <= i < |s + [u]| ==> IsHexDigit((s + [u])[i])
    ensures HexValue(s + [u]) == HexValue(s) * 16 + DigitValue(u)
  {
    assert (s + [u])[..|s|] == s;
  }

  /** The `name` the table initialiser computes for index i. */
  function EntryName(i: nat): (r: JsString)
    ensures 0 < |r|
    ensures 33 <= i <= 130 && i != 127 ==> r == [i as CodeUnit]
    ensures i > 130 ==> 2 < |r| && r[..2] == Js("U+")
    ensures i > 130 ==> var digits := r[2..];
      (forall k :: 0 <= k < |digits| ==> IsHexDigit(digits[k])) && HexValue(digits) == i
  {
    if i < 32 then Display(ControlNames[i])
    else if i == 32 then Js("SPACE")
    else if i == 127 then Display(DeleteName)
    else if 33 <= i <= 130 then FromCharCode(i)
    else Js("U+") + HexUpper(i)
  }

  datatype Entry = Entry(code: int, name: JsString)

  /** `unicodeMap`: the table `Array.from` builds, one entry per index below 130. */
  const UnicodeMap: seq<Entry> := BuildEntries(130)

  /** The first n entries `Array.from` produces: entry i has code i and the name `EntryName(i)`. */
  function BuildEntries(n: nat): (t: seq<Entry>)
    ensures |t| == n
    ensures forall i :: 0 <= i < n ==> t[i] == Entry(i, EntryName(i))
  {
    if n == 0 then [] else
      var t := BuildEntries(n - 1);
      var e := Entry(n - 1, EntryName(n - 1));
      assert forall i :: 0 <= i < n - 1 ==> (t + [e])[i] == t[i];
      t + [e]
  }

  /** `table.find(item => item.code === code)`, as the position of the entry found; None where `find` gives `undefined`. */
  function FindCode(table: seq<Entry>, code: int): (r: Option<nat>)
    ensures r.Some? ==> r.value < |table| && table[r.value].code == code
    ensures r.Some? ==> forall j :: 0 <= j < r.value ==> table[j].code != code
    ensures r.None? <==> forall j :: 0 <= j < |table| ==> table[j].code != code
  {
    if |table| == 0 then None
    else if table[0].code == code then Some(0)
    else
      match FindCode(table[1..], code)
      case None => None
      case Some(k) => Some(k + 1)
  }

  /** `getUnicodeChar`: the table's name for `index`, or the raw character when no entry has that code. */
  function GetUnicodeChar(index: int): (r: JsString)
    ensures 0 <= index < 130 ==> r == EntryName(index)
    ensures !(0 <= index < 130) ==> r == FromCharCode(index)
  {
    match FindCode(UnicodeMap, index)
    case Some(k) => UnicodeMap[k].name
    case None => FromCharCode(index)
  }
}

=== FILE: js_strings.dfy ===
/**
  The JavaScript string built-ins the page relies on: `String.fromCharCode`,
  `trim`, `indexOf`-based `split` and `replace` with a string pattern.
  A JavaScript string is a sequence of UTF-16 code units, so that is what
  the model uses; the page's own literals are ASCII and are written with `Js`.
*/
module JsStrings {
  import opened Options

  /** One UTF-16 code unit. */
  newtype CodeUnit = x: int | 0 <= x < 0x1_0000

  type JsString = seq<CodeUnit>

  /** Every character of `s` fits in one code unit. */
  predicate IsBmp(s: string) {
    forall i :: 0 <= i < |s| ==> s[i] as int < 0x1_0000
  }

  /**
    The code units of a string literal. Every literal of the page is ASCII, where
    each character is one unit; a character beyond one unit (never written here)
    would stand as U+FFFD.
  */
  function Js(s: string): (r: JsString)
    ensures |r| == |s|
    ensures IsBmp(s) ==> forall i :: 0 <= i < |s| ==> r[i] as int == s[i] as int
  {
    seq(|s|, i requires 0 <= i < |s| => if s[i] as int < 0x1_0000 then s[i] as int as CodeUnit else 0xFFFD)
  }

  /** `String.fromCharCode(n)` for one integral argument: ToUint16 reduces n modulo 2^16. */
  function FromCharCode(n: int): (r: JsString)
    ensures |r| == 1
    ensures r[0] as int == n % 0x1_0000
    ensures 0 <= n < 0x1_0000 ==> r[0] as int == n
  {
    [(n % 0x1_0000) as CodeUnit]
  }

  // ---------------------------------------------------------------- trim

  /** The units `trim` strips: ECMAScript WhiteSpace (including the Zs category) and LineTerminator. */
  predicate IsWhiteSpace(u: CodeUnit) {
    || u == 0x09 || u == 0x0B || u == 0x0C || u == 0x20 || u == 0xA0 || u == 0xFEFF
    || u == 0x1680 || (0x2000 <= u <= 0x200A) || u == 0x202F || u == 0x205F || u == 0x3000
    || u == 0x0A || u == 0x0D || u == 0x2028 || u == 0x2029
  }

  /** Neither end of `s` is white space. */
  predicate Trimmed(s: JsString) {
    |s| == 0 || (!IsWhiteSpace(s[0]) && !IsWhiteSpace(s[|s| - 1]))
  }

  /** The length of the longest all-white-space prefix of `s`. */
  function LeadingSpace(s: JsString): (n: nat)
    ensures n <= |s|
    ensures forall i :: 0 <= i < n ==> IsWhiteSpace(s[i])
    ensures n < |s| ==> !IsWhiteSpace(s[n])
  {
    if |s| == 0 || !IsWhiteSpace(s[0]) then 0 else 1 + LeadingSpace(s[1..])
  }

  /** The length of the longest all-white-space suffix of `s`. */
  function TrailingSpace(s: JsString): (n: nat)
    ensures n <= |s|
    ensures forall i :: |s| - n <= i < |s| ==> IsWhiteSpace(s[i])
    ensures n < |s| ==> !IsWhiteSpace(s[|s| - 1 - n])
  {
    if |s| == 0 || !IsWhiteSpace(s[|s| - 1]) then 0 else 1 + TrailingSpace(s[..|s| - 1])
  }

  /** `s.trim()`: the slice of `s` left once white space is stripped from both ends. */
  function Trim(s: JsString): (r: JsString)
    ensures Trimmed(r)
    ensures LeadingSpace(s) + |r| <= |s|
    ensures r == s[LeadingSpace(s)..LeadingSpace(s) + |r|]
    ensures forall i :: 0 <= i < LeadingSpace(s) ==> IsWhiteSpace(s[i])
    ensures forall i :: LeadingSpace(s) + |r| <= i < |s| ==> IsWhiteSpace(s[i])
  {
    var a := LeadingSpace(s);
    if a == |s| then [] else s[a..|s| - TrailingSpace(s)]
  }

  /** Trimming a string whose ends are not white space leaves it as it is. */
  lemma TrimOfTrimmed(s: JsString)
    requires Trimmed(s)
    ensures Trim(s) == s
  {
  }

  /** Trimming twice is trimming once. */
  lemma TrimIdempotent(s: JsString)
    ensures Trim(Trim(s)) == Trim(s)
  {
    TrimOfTrimmed(Trim(s));
  }

  // ------------------------------------------------------- searching

  /** `sep` occurs in `s` starting at index k. */
  predicate OccursAt(s: JsString, sep: JsString, k: int) {
    0 <= k && k + |sep| <= |s| && s[k..k + |sep|] == sep
  }

  predicate Contains(s: JsString, sep: JsString) {
    exists k :: 0 <= k <= |s| && OccursAt(s, sep, k)
  }

  /** `s.indexOf(sep)`: the first index at which `sep` occurs; None where JavaScript returns -1. */
  function IndexOf(s: JsString, sep: JsString): (r: Option<nat>)
    ensures r.Some? ==> OccursAt(s, sep, r.value)
    ensures r.Some? ==> forall j :: 0 <= j < r.value ==> !OccursAt(s, sep, j)
    ensures r.None? <==> !Contains(s, sep)
    decreases |s|
  {
    if |s| < |sep| then None
    else if s[..|sep|] == sep then Some(0)
    else
      var rest := IndexOf(s[1..], sep);
      ShiftOccurrence(s, sep);
      assert !OccursAt(s, sep, 0);
      match rest
      case None =>
        assert forall j :: 0 <= j <= |s| ==> !OccursAt(s, sep, j) by {
          forall j | 1 <= j <= |s| ensures !OccursAt(s, sep, j) {
            assert !OccursAt(s[1..], sep, j - 1);
          }
        }
        None
      case Some(k) =>
        assert forall j :: 0 <= j < k + 1 ==> !OccursAt(s, sep, j) by {
          forall j | 1 <= j < k + 1 ensures !OccursAt(s, sep, j) {
            assert !OccursAt(s[1..], sep, j - 1);
          }
        }
        Some(k + 1)
  }

  /** An occurrence at j + 1 in `s` is an occurrence at j in the tail of `s`. */
  lemma ShiftOccurrence(s: JsString, sep: JsString)
    requires |s| > 0
    ensures forall j :: 0 <= j ==> (OccursAt(s, sep, j + 1) <==> OccursAt(s[1..], sep, j))
  {
    forall j | 0 <= j
      ensures OccursAt(s, sep, j + 1) <==> OccursAt(s[1..], sep, j)
    {
      if j + 1 + |sep| <= |s| {
        assert s[1..][j..j + |sep|] == s[j + 1..j + 1 + |sep|];
      }
    }
  }

  // --------------------------------------------------- split and join

  /** The inverse of `split`: the pieces glued together with `sep` between them. */
  function Join(pieces: seq<JsString>, sep: JsString): (r: JsString)
    requires |pieces| > 0
  {
    if |pieces| == 1 then pieces[0] else pieces[0] + sep + Join(pieces[1..], sep)
  }

  /** `s.split(sep)` for a non-empty string separator and no limit. */
  function Split(s: JsString, sep: JsString): (r: seq<JsString>)
    requires |sep| > 0
    ensures |r| > 0
    ensures Join(r, sep) == s
    ensures forall i :: 0 <= i < |r| ==> !Contains(r[i], sep)
    ensures |r| == 1 <==> !Contains(s, sep)
    decreases |s|
  {
    match IndexOf(s, sep)
    case None => [s]
    case Some(k) =>
      var rest := Split(s[k + |sep|..], sep);
      SplitStep(s, sep, k, rest);
      [s[..k]] + rest
  }

  /** When `split` cuts, its first cut is at the leftmost occurrence of the separator. */
  lemma SplitCutsAtFirst(s: JsString, sep: JsString)
    requires |sep| > 0
    ensures |Split(s, sep)| > 1 ==> IndexOf(s, sep) == Some(|Split(s, sep)[0]|)
  {
  }

  /** One step of `Split`: the head before the first `sep`, then the pieces of the rest. */
  lemma SplitStep(s: JsString, sep: JsString, k: nat, rest: seq<JsString>)
    requires |sep| > 0
    requires OccursAt(s, sep, k)
    requires forall j :: 0 <= j < k ==> !OccursAt(s, sep, j)
    requires |rest| > 0 && Join(rest, sep) == s[k + |sep|..]
    requires forall i :: 0 <= i < |rest| ==> !Contains(rest[i], sep)
    ensures Join([s[..k]] + rest, sep) == s
    ensures forall i :: 0 <= i < |[s[..k]] + rest| ==> !Contains(([s[..k]] + rest)[i], sep)
  {
    JoinCons(s[..k], rest, sep);
    assert s[k..k + |sep|] == sep;
    Glue(s, k, k + |sep|);
    SplitPieces(s[..k], rest, sep, s, k);
  }

  /** Cutting a sequence at two points and gluing the parts back gives the sequence. */
  lemma Glue(s: JsString, i: nat, j: nat)
    requires i <= j <= |s|
    ensures s[..i] + s[i..j] + s[j..] == s
  {
  }

  lemma SplitPieces(head: JsString, rest: seq<JsString>, sep: JsString, s: JsString, k: nat)
    requires |sep| > 0 && k <= |s| && head == s[..k]
    requires forall j :: 0 <= j < k ==> !OccursAt(s, sep, j)
    requires forall i :: 0 <= i < |rest| ==> !Contains(rest[i], sep)
    ensures forall i :: 0 <= i < |[head] + rest| ==> !Contains(([head] + rest)[i], sep)
  {
    HeadHasNoSeparator(s, sep, k);
    var pieces := [head] + rest;
    forall i | 0 <= i < |pieces|
      ensures !Contains(pieces[i], sep)
    {
      if i > 0 {
        assert pieces[i] == rest[i - 1];
      }
    }
  }

  lemma JoinCons(head: JsString, rest: seq<JsString>, sep: JsString)
    requires |rest| > 0
    ensures Join([head] + rest, sep) == head + sep + Join(rest, sep)
  {
    assert ([head] + rest)[1..] == rest;
  }

  /** The text before the first occurrence of `sep` contains no `sep`. */
  lemma HeadHasNoSeparator(s: JsString, sep: JsString, k: nat)
    requires |sep| > 0
    requires k <= |s|
    requires forall j :: 0 <= j < k ==> !OccursAt(s, sep, j)
    ensures !Contains(s[..k], sep)
  {
    if Contains(s[..k], sep) {
      var j :| 0 <= j <= k && OccursAt(s[..k], sep, j);
      assert j + |sep| <= k;
      assert s[..k][j..j + |sep|] == s[j..j + |sep|];
      assert OccursAt(s, sep, j);
    }
  }

  /** `s.replace(pat, repl)` with a string pattern: only the first occurrence is replaced. */
  function ReplaceFirst(s: JsString, pat: JsString, repl: JsString): (r: JsString)
    ensures !Contains(s, pat) ==> r == s
    ensures Contains(s, pat) ==> |r| == |s| - |pat| + |repl|
  {
    match IndexOf(s, pat)
    case None => s
    case Some(k) => s[..k] + repl + s[k + |pat|..]
  }

  /**
    Where the pattern occurs, the result replaces the first occurrence and
    keeps everything before and after it.
  */
  lemma ReplaceFirstReplacesFirst(s: JsString, pat: JsString, repl: JsString, k: nat)
    requires OccursAt(s, pat, k)
    requires forall j :: 0 <= j < k ==> !OccursAt(s, pat, j)
    ensures ReplaceFirst(s, pat, repl) == s[..k] + repl + s[k + |pat|..]
  {
    assert Contains(s, pat);
    var r := IndexOf(s, pat);
    assert r.Some?;
    var i := r.value;
    assert OccursAt(s, pat, i);
    assert !(i < k);
    assert !(k < i);
  }
}

=== FILE: keyboard.dfy ===
/**
  The keyboard bridge (app/page.jsx lines 79-102): `moveCarousel` asks the
  carousel for one step when the step stays inside the table, and the
  `isHolding` flag lets one key press ask for at most one step.

  The carousel itself is outside the model: a step is only a request
  (`scrollNext`/`scrollPrev`), and the carousel reports the new active slide
  later through a `SlideChange` event (`onSlideChange`).
*/
module Keyboard {
  import opened Options

  datatype Direction = Down | Up

  /** `scrollNext()` or `scrollPrev()` on the carousel handle. */
  datatype Scroll = ScrollNext | ScrollPrev

  /** A step the page asked for, and the active index it asked from. */
  datatype Request = Request(scroll: Scroll, from: int)

  /**
    The page state the handlers use: `isHolding.current`, `activeIndex`, and
    whether `emblaRef.current` has been set.
  */
  datatype Page = Page(holding: bool, activeIndex: int, attached: bool)

  /** The state on load: no key held, slide 0, no carousel handle yet. */
  const Initial: Page := Page(false, 0, false)

  /** The slide a step leads to. */
  function Target(r: Request): int {
    match r.scroll
    case ScrollNext => r.from + 1
    case ScrollPrev => r.from - 1
  }

  /**
    `moveCarousel(direction)`, where `slideCount` is the table size the listener
    sees (`unicode ? 130 : 26`).
  */
  function MoveCarousel(p: Page, direction: Direction, slideCount: int): (r: Option<Request>)
    ensures !p.attached ==> r == None
    ensures r.Some? ==> r.value.from == p.activeIndex
    ensures r.Some? && r.value.scroll == ScrollNext <==>
      p.attached && direction == Down && p.activeIndex < slideCount - 1
    ensures r.Some? && r.value.scroll == ScrollPrev <==>
      p.attached && direction == Up && p.activeIndex > 0
  {
    if !p.attached then None
    else if direction == Down && p.activeIndex < slideCount - 1 then Some(Request(ScrollNext, p.activeIndex))
    else if direction == Up && p.activeIndex > 0 then Some(Request(ScrollPrev, p.activeIndex))
    else None
  }

  /**
    From an index inside the table, a step is asked for exactly when the
    carousel is there and the step lands inside the table.
  */
  lemma MoveStaysInTable(p: Page, direction: Direction, slideCount: int)
    requires 0 <= p.activeIndex < slideCount
    ensures var r := MoveCarousel(p, direction, slideCount);
      && (r.Some? ==> 0 <= Target(r.value) < slideCount)
      && (r.Some? <==>
           p.attached
           && 0 <= (if direction == Down then p.activeIndex + 1 else p.activeIndex - 1) < slideCount)
  {
  }

  /** `handleKeyDown(event)`: the new state and the step it asked for, if any. */
  function HandleKeyDown(p: Page, key: string, slideCount: int): (r: (Page, Option<Request>))
    ensures p.holding ==> r == (p, None)
    ensures r.0.activeIndex == p.activeIndex && r.0.attached == p.attached
    ensures !p.holding && (key == "ArrowDown" || key == "ArrowUp") ==> r.0.holding
    ensures key != "ArrowDown" && key != "ArrowUp" ==> r == (p, None)
    ensures r.1.Some? ==> !p.holding && r.0.holding
    ensures !p.holding && key == "ArrowDown" ==> r.1 == MoveCarousel(p, Down, slideCount)
    ensures !p.holding && key == "ArrowUp" ==> r.1 == MoveCarousel(p, Up, slideCount)
  {
    if p.holding then (p, None)
    else if key == "ArrowDown" then (p.(holding := true), MoveCarousel(p, Down, slideCount))
    else if key == "ArrowUp" then (p.(holding := true), MoveCarousel(p, Up, slideCount))
    else (p, None)
  }

  /** `handleKeyUp()`: any released key clears the hold. */
  function HandleKeyUp(p: Page): (r: Page)
    ensures !r.holding
    ensures r.activeIndex == p.activeIndex && r.attached == p.attached
  {
    p.(holding := false)
  }

  /** What can happen to the page. */
  datatype Event =
    | KeyDown(key: string, slideCount: int)  // a keydown the listener sees with that table size
    | KeyUp                                   // any keyup
    | SlideChange(index: int)                 // `onSlideChange` from the carousel
    | CarouselReady                           // `getEmblaApi` hands over the handle

  /** One event: the new state and the step asked for, if any. */
  function Step(p: Page, e: Event): (r: (Page, Option<Request>))
    ensures r.0.holding == (if e.KeyUp? then false
                            else if e.KeyDown? && (e.key == "ArrowDown" || e.key == "ArrowUp") then true
                            else p.holding)
    ensures r.0.activeIndex == (if e.SlideChange? then e.index else p.activeIndex)
    ensures r.0.attached == (p.attached || e.CarouselReady?)
    ensures r.1.Some? ==> e.KeyDown? && !p.holding && p.attached
    ensures e.KeyDown? ==> r == HandleKeyDown(p, e.key, e.slideCount)
    ensures e.KeyUp? ==> r == (HandleKeyUp(p), None)
  {
    match e
    case KeyDown(key, n) => HandleKeyDown(p, key, n)
    case KeyUp => (HandleKeyUp(p), None)
    case SlideChange(i) => (p.(activeIndex := i), None)
    case CarouselReady => (p.(attached := true), None)
  }

  /** A run of events: the final state and every step asked for, in order. */
  function Run(p: Page, events: seq<Event>): (r: (Page, seq<Request>))
    ensures |r.1| <= |events|
    ensures (forall i :: 0 <= i < |events| ==> !events[i].KeyDown?) ==> r.1 == []
    ensures (forall i :: 0 <= i < |events| ==> !events[i].CarouselReady?) ==>
      r.0.attached == p.attached && (!p.attached ==> r.1 == [])
    decreases |events|
  {
    if |events| == 0 then (p, [])
    else
      var (q, req) := Step(p, events[0]);
      var (last, reqs) := Run(q, events[1..]);
      (last, (if req.Some? then [req.value] else []) + reqs)
  }

  /** A run of one event asks for what that event asks for. */
  lemma RunSingle(p: Page, e: Event)
    ensures Run(p, [e]) == (Step(p, e).0, if Step(p, e).1.Some? then [Step(p, e).1.value] else [])
  {
    var (q, req) := Step(p, e);
    var head := if req.Some? then [req.value] else [];
    assert [e][0] == e && [e][1..] == [];
    assert Run(q, []) == (q, []);
    assert Run(p, [e]).0 == q;
    assert Run(p, [e]).1 == head + [] == head;
  }

  /** A run of a non-empty sequence: the first event's step, then the run of the rest. */
  lemma RunCons(p: Page, events: seq<Event>)
    requires |events| > 0
    ensures var (q, req) := Step(p, events[0]);
      && Run(p, events).0 == Run(q, events[1..]).0
      && Run(p, events).1 == (if req.Some? then [req.value] else []) + Run(q, events[1..]).1
  {
  }

  /**
    A run of `a + b` is the run of `a` followed by the run of `b` from where `a`
    left the page: the steps asked for are those of `a`, then those of `b`, in order.
  */
  lemma RunAppend(p: Page, a: seq<Event>, b: seq<Event>)
    ensures Run(p, a + b) == (Run(Run(p, a).0, b).0, Run(p, a).1 + Run(Run(p, a).0, b).1)
  {
    RunAppendPage(p, a, b);
    RunAppendSteps(p, a, b);
  }

  /** The page after `a + b` is the page after running b from where a left it. */
  lemma {:induction false} RunAppendPage(p: Page, a: seq<Event>, b: seq<Event>)
    ensures Run(p, a + b).0 == Run(Run(p, a).0, b).0
    decreases |a|
  {
    if |a| == 0 {
      assert a + b == b;
      assert Run(p, a).0 == p;
    } else {
      var ab := a + b;
      assert ab[0] == a[0] && ab[1..] == a[1..] + b;
      var q := Step(p, a[0]).0;
      RunCons(p, a);
      RunCons(p, ab);
      RunAppendPage(q, a[1..], b);
    }
  }

  /** The steps of `a + b` are the steps of a, then those of b from where a left the page. */
  lemma {:induction false} RunAppendSteps(p: Page, a: seq<Event>, b: seq<Event>)
    ensures Run(p, a + b).1 == Run(p, a).1 + Run(Run(p, a).0, b).1
    decreases |a|
  {
    if |a| == 0 {
      assert a + b == b;
      assert Run(p, a).0 == p;
      assert Run(p, a).1 == [];
    } else {
      var ab := a + b;
      assert ab[0] == a[0] && ab[1..] == a[1..] + b;
      var st := Step(p, a[0]);
      var q := st.0;
      var head := if st.1.Some? then [st.1.value] else [];
      RunCons(p, a);
      RunCons(p, ab);
      RunAppendSteps(q, a[1..], b);
      Regroup(Run(p, ab).1, Run(p, a).1, head, Run(q, a[1..]).1, Run(Run(q, a[1..]).0, b).1);
    }
  }

  /** Regrouping the steps of a run that starts with a known step. */
  lemma Regroup(whole: seq<Request>, first: seq<Request>, head: seq<Request>, rest: seq<Request>, tail: seq<Request>)
    requires whole == head + (rest + tail)
    requires first == head + rest
    ensures whole == first + tail
  {
  }

  function CountKeyUps(events: seq<Event>): nat
  {
    if |events| == 0 then 0 else (if events[0].KeyUp? then 1 else 0) + CountKeyUps(events[1..])
  }

  /**
    Between two keyups at most one step is asked for, and none at all while
    a key is already held: holding a key down is one press.
  */
  lemma {:induction false} OneStepPerPress(p: Page, events: seq<Event>)
    requires forall i :: 0 <= i < |events| ==> !events[i].KeyUp?
    ensures |Run(p, events).1| <= (if p.holding then 0 else 1)
    ensures p.holding || |Run(p, events).1| == 1 ==> Run(p, events).0.holding
    decreases |events|
  {
    if |events| > 0 {
      var (q, req) := Step(p, events[0]);
      OneStepPerPress(q, events[1..]);
      assert Run(p, events).1 == (if req.Some? then [req.value] else []) + Run(q, events[1..]).1;
      assert p.holding ==> q.holding;
      assert req.Some? ==> q.holding;
    }
  }

  /** Over any run, the steps asked for are at most the keyups plus one. */
  lemma {:induction false} StepsBoundedByKeyUps(p: Page, events: seq<Event>)
    ensures |Run(p, events).1| <= CountKeyUps(events) + (if p.holding then 0 else 1)
    decreases |events|
  {
    if |events| > 0 {
      var (q, req) := Step(p, events[0]);
      StepsBoundedByKeyUps(q, events[1..]);
      assert req.Some? ==> q.holding && !p.holding;
    }
  }

  /** Every event keeps the active index inside a table of `slideCount` slides. */
  predicate StaysInTable(e: Event, slideCount: int) {
    match e
    case KeyDown(_, n) => n == slideCount
    case SlideChange(i) => 0 <= i < slideCount
    case _ => true
  }

  /**
    While the table size does not change and the carousel only reports slides
    inside it, the active index stays inside the table and every step asked
    for leads to a slide inside it.
  */
  lemma {:induction false} RequestsStayInTable(p: Page, events: seq<Event>, slideCount: int)
    requires 0 <= p.activeIndex < slideCount
    requires forall i :: 0 <= i < |events| ==> StaysInTable(events[i], slideCount)
    ensures 0 <= Run(p, events).0.activeIndex < slideCount
    ensures forall k :: 0 <= k < |Run(p, events).1| ==> 0 <= Target(Run(p, events).1[k]) < slideCount
    decreases |events|
  {
    if |events| > 0 {
      var (q, req) := Step(p, events[0]);
      if events[0].KeyDown? {
        MoveStaysInTable(p, if events[0].key == "ArrowDown" then Down else Up, slideCount);
      }
      RequestsStayInTable(q, events[1..], slideCount);
    }
  }

  /** Holding ArrowDown (three keydowns, no keyup) on slide 0 asks for exactly one step. */
  lemma HeldArrowDownExample()
    ensures var ready := Page(false, 0, true);
      var down := KeyDown("ArrowDown", 26);
      Run(ready, [down, down, down]) == (Page(true, 0, true), [Request(ScrollNext, 0)])
  {
    var ready, held := Page(false, 0, true), Page(true, 0, true);
    var down := KeyDown("ArrowDown", 26);
    assert Step(held, down) == (held, None);
    assert Step(ready, down) == (held, Some(Request(ScrollNext, 0)));
    assert Run(held, []) == (held, []);
    assert [down][1..] == [];
    assert Run(held, [down]).0 == held;
    assert Run(held, [down]).1 == [];
    assert [down, down][1..] == [down];
    assert Run(held, [down, down]).0 == held;
    assert Run(held, [down, down]).1 == [];
    assert [down, down, down][1..] == [down, down];
    assert Run(ready, [down, down, down]).0 == held;
    assert Run(ready, [down, down, down]).1 == [Request(ScrollNext, 0)];
  }

  /** Releasing the key and pressing it again asks for a second step. */
  lemma PressReleasePressExample()
    ensures var ready := Page(false, 0, true);
      var down := KeyDown("ArrowDown", 26);
      |Run(ready, [down, KeyUp, SlideChange(1), down]).1| == 2
  {
    var down := KeyDown("ArrowDown", 26);
    var events := [down, KeyUp, SlideChange(1), down];
    assert events[1..] == [KeyUp, SlideChange(1), down];
    assert events[2..] == [SlideChange(1), down];
    assert events[3..] == [down];
    assert |Run(Page(false, 1, true), events[3..]).1| == 1;
    assert |Run(Page(false, 0, true), events[2..]).1| == 1;
    assert |Run(Page(true, 0, true), events[1..]).1| == 1;
  }
}

=== FILE: listener.dfy ===
/**
  How the page registers its key listeners (app/page.jsx lines 104-112, with the
  switch on lines 117-119). The effect re-registers `handleKeyDown` only when
  `activeIndex` changes, so the handler keeps the `unicode` flag of the render
  that registered it: after the switch is flipped it still measures the old
  table. `StepAsWritten` models that; `Step` is the listener that reads the
  table size of the current render, as the page evidently intends.
*/
module Listener {
  import opened Options
  import opened CharTables
  import opened Keyboard

  /**
    The page as the listener sees it: the switch (`unicode`), the key state,
    and the `unicode` value the registered `handleKeyDown` closed over.
  */
  datatype View = View(unicode: bool, page: Page, listenerUnicode: bool)

  /** The view on load: letters, slide 0, listener registered for letters. */
  const Loaded: View := View(false, Initial, false)

  datatype Input =
    | Switch(on: bool)   // the switch's `onChange`
    | Press(key: string) // a keydown
    | Release            // a keyup
    | Slide(index: int)  // `onSlideChange`
    | Ready              // `getEmblaApi`

  /** The key and carousel event an input amounts to, given the table size the handler uses. */
  function AsEvent(i: Input, slideCount: int): Event
    requires !i.Switch?
  {
    match i
    case Press(k) => KeyDown(k, slideCount)
    case Release => KeyUp
    case Slide(n) => SlideChange(n)
    case Ready => CarouselReady
  }

  /**
    The page as written: a slide change to a new index re-runs the effect, which
    registers a handler that closes over the current `unicode`; flipping the
    switch re-renders but does not re-register.
  */
  function StepAsWritten(v: View, i: Input): (r: (View, Option<Request>))
    ensures i.Switch? ==> r == (v.(unicode := i.on), None)
    ensures i.Press? ==> r.1 == HandleKeyDown(v.page, i.key, SlideCount(v.listenerUnicode)).1
    ensures r.0.listenerUnicode != v.listenerUnicode ==>
      i.Slide? && i.index != v.page.activeIndex && r.0.listenerUnicode == v.unicode
    ensures i.Slide? && i.index != v.page.activeIndex ==> r.0.listenerUnicode == v.unicode
    ensures !i.Switch? ==> r.0.page == Keyboard.Step(v.page, AsEvent(i, SlideCount(v.listenerUnicode))).0
    ensures r.0.unicode == (if i.Switch? then i.on else v.unicode)
  {
    if i.Switch? then (v.(unicode := i.on), None)
    else
      var (p, req) := Keyboard.Step(v.page, AsEvent(i, SlideCount(v.listenerUnicode)));
      var reRegistered := i.Slide? && i.index != v.page.activeIndex;
      (View(v.unicode, p, if reRegistered then v.unicode else v.listenerUnicode), req)
  }

  /**
    The corrected page: the handler always uses the table size of the current
    render (the effect also depends on `unicode`).
  */
  function Step(v: View, i: Input): (r: (View, Option<Request>))
    ensures r.0.unicode == (if i.Switch? then i.on else v.unicode)
    ensures r.0.listenerUnicode == r.0.unicode
    ensures i.Press? ==> r.1 == HandleKeyDown(v.page, i.key, SlideCount(v.unicode)).1
    ensures !i.Press? ==> r.1 == None
  {
    if i.Switch? then (View(i.on, v.page, i.on), None)
    else
      var (p, req) := Keyboard.Step(v.page, AsEvent(i, SlideCount(v.unicode)));
      (View(v.unicode, p, v.unicode), req)
  }

  /**
    While the registered handler closed over the current switch position, the
    page as written and the corrected page ask for the same step.
  */
  lemma AgreeWhileRegistered(v: View, i: Input)
    requires v.listenerUnicode == v.unicode
    ensures StepAsWritten(v, i).1 == Step(v, i).1
    ensures StepAsWritten(v, i).0.page == Step(v, i).0.page
  {
  }

  /**
    With the corrected listener, ArrowDown (not held, carousel attached) asks for
    the next slide exactly when there is one in the table on screen.
  */
  lemma ArrowDownUsesShownTable(v: View)
    requires !v.page.holding && v.page.attached
    ensures Step(v, Press("ArrowDown")).1.Some? <==> v.page.activeIndex < SlideCount(v.unicode) - 1
  {
  }

  /**
    As written, on letter slide 25 with the switch flipped to the extended table,
    ArrowDown asks for nothing although slide 26 is on screen; the corrected
    listener asks for it.
  */
  lemma StaleTableSize()
    ensures var v := View(false, Page(false, 25, true), false);
      var (flipped, _) := StepAsWritten(v, Switch(true));
      && 25 < SlideCount(flipped.unicode) - 1
      && StepAsWritten(flipped, Press("ArrowDown")).1 == None
      && Step(Step(v, Switch(true)).0, Press("ArrowDown")).1 == Some(Request(ScrollNext, 25))
  {
  }

  /**
    As written, switching from extended mode on slide 100 back to letters
    neither clamps the index nor re-registers the handler: the handler still
    measures the 130-entry table, so ArrowDown asks for slide 101 and ArrowUp
    for slide 99, both outside the 26 letters on screen.
  */
  lemma StaleIndexAsWritten()
    ensures var v := View(true, Page(false, 100, true), true);
      var (letters, _) := StepAsWritten(v, Switch(false));
      && SlideCount(letters.unicode) == 26
      && letters.page.activeIndex == 100
      && StepAsWritten(letters, Press("ArrowDown")).1 == Some(Request(ScrollNext, 100))
      && Target(StepAsWritten(letters, Press("ArrowDown")).1.value) >= SlideCount(letters.unicode)
      && StepAsWritten(letters, Press("ArrowUp")).1 == Some(Request(ScrollPrev, 100))
      && Target(StepAsWritten(letters, Press("ArrowUp")).1.value) >= SlideCount(letters.unicode)
  {
  }

  /**
    The corrected listener measures the letter table after the same switch, so
    ArrowDown asks for nothing; the index is still not clamped, so ArrowUp asks
    for slide 99, outside the letters on screen.
  */
  lemma StaleIndexCorrected()
    ensures var v := View(true, Page(false, 100, true), true);
      var (letters, _) := Step(v, Switch(false));
      && letters.page.activeIndex == 100
      && Step(letters, Press("ArrowDown")).1 == None
      && Step(letters, Press("ArrowUp")).1 == Some(Request(ScrollPrev, 100))
      && Target(Step(letters, Press("ArrowUp")).1.value) >= SlideCount(letters.unicode)
  {
  }
}

=== FILE: name_parser.dfy ===
/**
  `parseUnicodeChar` (app/page.jsx lines 160-166): a display name is split on
  " (" into a trimmed main part and an optional description from which the first
  ")" is removed.
*/
module NameParser {
  import opened Options
  import opened JsStrings
  import opened CharTables

  /** The `{ main, description }` object; None stands for `description: null`. */
  datatype Parsed = Parsed(main: JsString, description: Option<JsString>)

  /** `parseUnicodeChar(name)`. */
  function ParseUnicodeChar(name: JsString): (r: Parsed)
    ensures Trimmed(r.main)
    ensures r.description.Some? ==> Trimmed(r.description.value)
    ensures r.description.Some? ==> Contains(name, Sep)
    ensures !Contains(name, Sep) ==> r == Parsed(Trim(name), None)
  {
    var pieces := Split(name, Sep);
    var main := pieces[0];
    // destructuring leaves `description` undefined when there is no second piece,
    // and the empty string is falsy as well
    var description := if |pieces| > 1 then pieces[1] else [];
    Parsed(Trim(main),
           if |description| > 0 then Some(Trim(ReplaceFirst(description, [CloseParen], []))) else None)
  }

  /** The display name a parsed pair comes from: the inverse of `ParseUnicodeChar`. */
  function Compose(p: Parsed): JsString
  {
    match p.description
    case None => p.main
    case Some(d) => p.main + Sep + d + [CloseParen]
  }

  /** A main part that survives parsing unchanged. */
  predicate GoodMain(m: JsString) {
    Trimmed(m) && !Contains(m, Sep)
  }

  /** A description that survives parsing unchanged. */
  predicate GoodDescription(d: JsString) {
    Trimmed(d) && !Contains(d, Sep) && CloseParen !in d
  }

  predicate WellFormed(p: Parsed) {
    GoodMain(p.main) && (p.description.Some? ==> GoodDescription(p.description.value))
  }

  // ---------------------------------------------------- split on " ("

  /** Text without "(" cannot hold " (". */
  lemma NoOpenParenNoSeparator(s: JsString)
    requires Sep[1] !in s
    ensures !Contains(s, Sep)
  {
    forall j | 0 <= j <= |s|
      ensures !OccursAt(s, Sep, j)
    {
      if j + 2 <= |s| {
        assert s[j..j + 2][1] == s[j + 1];
        assert s[j + 1] in s;
      }
    }
  }

  /** In `p + " (" + rest` with no " (" inside p, the first " (" is the one after p. */
  lemma FirstSeparatorAfter(p: JsString, rest: JsString)
    requires !Contains(p, Sep)
    ensures IndexOf(p + Sep + rest, Sep) == Some(|p|)
  {
    var s := p + Sep + rest;
    assert s[|p|..|p| + 2] == Sep;
    assert OccursAt(s, Sep, |p|);
    forall j | 0 <= j < |p|
      ensures !OccursAt(s, Sep, j)
    {
      if j + 2 <= |p| {
        assert s[j..j + 2] == p[j..j + 2];
        assert !OccursAt(p, Sep, j);
      } else {
        assert s[j..j + 2][1] == s[j + 1] == Sep[0] != Sep[1];
      }
    }
  }

  /** Splitting `p + " (" + rest` yields p followed by the pieces of rest. */
  lemma SplitCons(p: JsString, rest: JsString)
    requires !Contains(p, Sep)
    ensures Split(p + Sep + rest, Sep) == [p] + Split(rest, Sep)
  {
    var s := p + Sep + rest;
    FirstSeparatorAfter(p, rest);
    assert s[..|p|] == p;
    assert s[|p| + 2..] == rest;
  }

  /** Splitting on " (" undoes joining pieces that hold no " (". */
  lemma {:induction false} SplitJoin(pieces: seq<JsString>)
    requires |pieces| > 0
    requires forall i :: 0 <= i < |pieces| ==> !Contains(pieces[i], Sep)
    ensures Split(Join(pieces, Sep), Sep) == pieces
    decreases |pieces|
  {
    if |pieces| == 1 {
      assert Split(pieces[0], Sep) == [pieces[0]];
    } else {
      SplitJoin(pieces[1..]);
      SplitCons(pieces[0], Join(pieces[1..], Sep));
      assert [pieces[0]] + pieces[1..] == pieces;
    }
  }

  // ------------------------------------------------------ parse results

  /**
    A name without " (" has only a main part, trimmed: the last clause of
    `ParseUnicodeChar`'s contract, stated on its own for callers.
  */
  lemma ParseWithoutSeparator(name: JsString)
    requires !Contains(name, Sep)
    ensures ParseUnicodeChar(name).main == Trim(name)
    ensures ParseUnicodeChar(name).description == None
  {
  }

  /**
    Text after the first " (" that holds no further " (": main is the trimmed
    text before it, and the description drops only the first ")" of the rest.
  */
  lemma ParseSplitsAtFirstSeparator(m: JsString, d: JsString, t: JsString)
    requires !Contains(m, Sep)
    requires !Contains(d + [CloseParen] + t, Sep)
    requires CloseParen !in d
    ensures ParseUnicodeChar(m + Sep + d + [CloseParen] + t)
      == Parsed(Trim(m), Some(Trim(d + t)))
  {
    var piece := d + [CloseParen] + t;
    assert m + Sep + d + [CloseParen] + t == m + Sep + piece;
    SplitCons(m, piece);
    assert Split(piece, Sep) == [piece];
    FirstCloseParen(d, t);
  }

  /**
    A name with " (" after a main part m: main is m trimmed, and the description
    is the text up to the next " (" (or the end), with its first ")" removed and
    then trimmed; it is null when that text is empty.
  */
  lemma ParseAtFirstSeparator(m: JsString, rest: JsString)
    requires !Contains(m, Sep)
    ensures ParseUnicodeChar(m + Sep + rest).main == Trim(m)
    ensures var d := Split(rest, Sep)[0];
      ParseUnicodeChar(m + Sep + rest).description
        == if |d| > 0 then Some(Trim(ReplaceFirst(d, [CloseParen], []))) else None
  {
    SplitCons(m, rest);
  }

  /** The description is the text between the first and the second " (". */
  lemma ParseBetweenSeparators(m: JsString, d: JsString, t: JsString)
    requires !Contains(m, Sep) && !Contains(d, Sep)
    ensures ParseUnicodeChar(m + Sep + d + Sep + t)
      == Parsed(Trim(m), if |d| > 0 then Some(Trim(ReplaceFirst(d, [CloseParen], []))) else None)
  {
    var rest := d + Sep + t;
    assert Split(rest, Sep)[0] == d by {
      SplitCons(d, t);
    }
    assert m + Sep + d + Sep + t == m + Sep + rest;
    ParseAtFirstSeparator(m, rest);
  }

  /** A description without ")" is only trimmed: nothing is removed. */
  lemma ParseWithoutCloseParen(m: JsString, d: JsString)
    requires !Contains(m, Sep) && !Contains(d, Sep) && CloseParen !in d && |d| > 0
    ensures ParseUnicodeChar(m + Sep + d) == Parsed(Trim(m), Some(Trim(d)))
  {
    ParseAtFirstSeparator(m, d);
    assert Split(d, Sep) == [d];
    NoCloseParen(d);
  }

  /** Text without ")" does not contain ")". */
  lemma NoCloseParen(d: JsString)
    requires CloseParen !in d
    ensures !Contains(d, [CloseParen])
  {
    forall j | 0 <= j <= |d|
      ensures !OccursAt(d, [CloseParen], j)
    {
      if j + 1 <= |d| {
        assert d[j..j + 1][0] == d[j];
      }
    }
  }

  /** "A (b) (c)" shows "A" with "b": the text after the second " (" is dropped. */
  lemma SecondSeparatorExample()
    ensures ParseUnicodeChar(Js("A (b) (c)")) == Parsed(Js("A"), Some(Js("b")))
  {
    assert Js("A (b) (c)") == [0x41, 0x20, 0x28, 0x62, 0x29, 0x20, 0x28, 0x63, 0x29];
    assert Js("A") == [0x41] && Js("b") == [0x62];
    SecondSeparatorUnits(Js("A (b) (c)"));
  }

  lemma SecondSeparatorUnits(name: JsString)
    requires name == [0x41, 0x20, 0x28, 0x62, 0x29, 0x20, 0x28, 0x63, 0x29]
    ensures ParseUnicodeChar(name) == Parsed([0x41], Some([0x62]))
  {
    var a, b, c: JsString := [0x41], [0x62], [0x63];
    assert name == a + Sep + (b + [CloseParen]) + Sep + (c + [CloseParen]);
    assert !Contains(a, Sep) && !Contains(b + [CloseParen], Sep) by {
      NoOpenParenNoSeparator(a);
      NoOpenParenNoSeparator(b + [CloseParen]);
    }
    assert ParseUnicodeChar(name) == Parsed(Trim(a), Some(Trim(ReplaceFirst(b + [CloseParen], [CloseParen], [])))) by {
      ParseBetweenSeparators(a, b + [CloseParen], c + [CloseParen]);
    }
    assert ReplaceFirst(b + [CloseParen], [CloseParen], []) == b by {
      FirstCloseParen(b, []);
      assert b + [CloseParen] + [] == b + [CloseParen];
    }
    TrimLetter(a);
    TrimLetter(b);
  }

  /** One character between "A" and "z", with neither " (" nor ")" in it, is its own trim. */
  lemma TrimLetter(a: JsString)
    requires |a| == 1 && 0x41 <= a[0] <= 0x7A
    ensures Trim(a) == a
    ensures !Contains(a, Sep) && CloseParen !in a
  {
    TrimOfTrimmed(a);
    NoOpenParenNoSeparator(a);
  }

  /** "A (b" shows "A" with "b": a missing ")" is not an error. */
  lemma MissingCloseParenExample()
    ensures ParseUnicodeChar(Js("A (b")) == Parsed(Js("A"), Some(Js("b")))
  {
    assert Js("A (b") == [0x41, 0x20, 0x28, 0x62];
    assert Js("A") == [0x41] && Js("b") == [0x62];
    MissingCloseParenUnits(Js("A (b"));
  }

  lemma MissingCloseParenUnits(name: JsString)
    requires name == [0x41, 0x20, 0x28, 0x62]
    ensures ParseUnicodeChar(name) == Parsed([0x41], Some([0x62]))
  {
    var a, b: JsString := [0x41], [0x62];
    assert name == a + Sep + b;
    assert ParseUnicodeChar(a + Sep + b) == Parsed(Trim(a), Some(Trim(b))) by {
      NoOpenParenNoSeparator(a);
      NoOpenParenNoSeparator(b);
      ParseWithoutCloseParen(a, b);
    }
    TrimLetter(a);
    TrimLetter(b);
  }

  /** Removing the first ")" from `d + ")" + t` where d has none leaves `d + t`. */
  lemma FirstCloseParen(d: JsString, t: JsString)
    requires CloseParen !in d
    ensures ReplaceFirst(d + [CloseParen] + t, [CloseParen], []) == d + t
  {
    var s := d + [CloseParen] + t;
    assert OccursAt(s, [CloseParen], |d|);
    forall j | 0 <= j < |d|
      ensures !OccursAt(s, [CloseParen], j)
    {
      assert s[j] == d[j];
    }
    assert IndexOf(s, [CloseParen]) == Some(|d|);
    assert s[..|d|] == d;
    assert s[|d| + 1..] == t;
  }

  /** " (" followed by nothing, or by another " (" at once, gives no description: "" is falsy. */
  lemma ParseEmptyDescription(m: JsString, t: JsString)
    requires !Contains(m, Sep)
    ensures ParseUnicodeChar(m + Sep).description == None
    ensures ParseUnicodeChar(m + Sep + Sep + t).description == None
  {
    SplitCons(m, []);
    assert m + Sep == m + Sep + [];
    SplitCons(m, Sep + t);
    assert m + Sep + Sep + t == m + Sep + (Sep + t);
    SplitCons([], t);
    assert [] + Sep + t == Sep + t;
  }

  /** Parsing a composed name gives back its parts: the round trip of display names. */
  lemma ParseCompose(p: Parsed)
    requires WellFormed(p)
    ensures ParseUnicodeChar(Compose(p)) == p
  {
    TrimOfTrimmed(p.main);
    if p.description.Some? {
      ParseComposeWithDescription(p.main, p.description.value);
    }
  }

  lemma ParseComposeWithDescription(m: JsString, d: JsString)
    requires GoodMain(m) && GoodDescription(d)
    ensures ParseUnicodeChar(m + Sep + d + [CloseParen]) == Parsed(m, Some(d))
  {
    NoSeparatorAfterDescription(d);
    ParseSplitsAtFirstSeparator(m, d, []);
    assert m + Sep + d + [CloseParen] + [] == m + Sep + d + [CloseParen];
    assert d + [] == d;
    TrimOfTrimmed(m);
    TrimOfTrimmed(d);
  }

  /** A description without " (" and ")" gains no " (" from its closing ")". */
  lemma NoSeparatorAfterDescription(d: JsString)
    requires !Contains(d, Sep)
    ensures !Contains(d + [CloseParen] + [], Sep)
  {
    var s := d + [CloseParen] + [];
    forall j | 0 <= j <= |s|
      ensures !OccursAt(s, Sep, j)
    {
      if j + 2 <= |d| {
        assert s[j..j + 2] == d[j..j + 2];
        assert !OccursAt(d, Sep, j);
      } else if j + 2 <= |s| {
        assert s[j + 1] == CloseParen;
      }
    }
  }

  /** Composing the parts of a well-formed name gives back the name. */
  lemma ComposeParse(name: JsString)
    requires exists p :: WellFormed(p) && Compose(p) == name
    ensures Compose(ParseUnicodeChar(name)) == name
  {
    var p :| WellFormed(p) && Compose(p) == name;
    ParseCompose(p);
  }
}

=== FILE: opacity.dfy ===
/**
  `calculateOpacity` (app/page.jsx lines 66-70): a slide's weight falls off
  linearly with its distance from the active slide and is zero from five slides
  away. Every weight is a multiple of 1/5, so the model computes over `real`
  exactly.
*/
module Opacity {

  function Abs(x: int): nat {
    if x < 0 then -x else x
  }

  /** `calculateOpacity(slideIndex)` while `activeIndex` is the active slide. */
  function Weight(activeIndex: int, slideIndex: int): (r: real)
    ensures 0.0 <= r <= 1.0
    ensures r == 1.0 <==> activeIndex == slideIndex
    ensures r == 0.0 <==> Abs(activeIndex - slideIndex) >= 5
    ensures (5.0 * r).Floor as real == 5.0 * r
  {
    var distance := Abs(activeIndex - slideIndex);
    if distance > 5 then 0.0 else 1.0 - distance as real / 5.0
  }

  function Max(a: real, b: real): real {
    if a < b then b else a
  }

  /** The weight is the clamped linear decay max(0, 1 - d/5) in the distance d. */
  lemma WeightIsClampedDecay(activeIndex: int, slideIndex: int)
    ensures Weight(activeIndex, slideIndex)
      == Max(0.0, 1.0 - Abs(activeIndex - slideIndex) as real / 5.0)
  {
  }

  /** Swapping the slide and the active index does not change the weight. */
  lemma WeightSymmetric(a: int, b: int)
    ensures Weight(a, b) == Weight(b, a)
  {
  }

  /** Moving both indices by the same amount does not change the weight. */
  lemma WeightShift(a: int, b: int, k: int)
    ensures Weight(a + k, b + k) == Weight(a, b)
  {
  }

  /** A slide closer to the active one never weighs less. */
  lemma WeightMonotone(activeIndex: int, near: int, far: int)
    requires Abs(activeIndex - near) <= Abs(activeIndex - far)
    ensures Weight(activeIndex, near) >= Weight(activeIndex, far)
  {
  }

  /** The end points the page relies on: 1 at the active slide, 0 at distance five and beyond. */
  lemma WeightEndPoints(activeIndex: int)
    ensures Weight(activeIndex, activeIndex) == 1.0
    ensures Weight(activeIndex, activeIndex + 5) == 0.0
    ensures Weight(activeIndex, activeIndex - 6) == 0.0
    ensures Weight(activeIndex, activeIndex + 1) == 0.8
  {
  }
}

=== FILE: options.dfy ===
/** The optional value the page uses where JavaScript has `null` or `undefined`. */
module Options {

  datatype Option<+T> = None | Some(value: T)
}

=== FILE: slide_text.dfy ===
/**
  What each slide shows: the label `NumToTextMap` looks up for a slide number
  (app/page.jsx line 169) and the parse of that label, together with the facts
  about the extended table's names that the parse relies on.
*/
module SlideText {
  import opened Options
  import opened JsStrings
  import opened CharTables
  import opened NameParser

  /** A control-code mnemonic: two or three upper-case letters or digits. */
  predicate IsMnemonic(s: JsString) {
    2 <= |s| <= 3 && forall k :: 0 <= k < |s| ==> (0x41 <= s[k] <= 0x5A || 0x30 <= s[k] <= 0x39)
  }

  // ------------------------------------------- the control-name literals

  predicate IsMnemonicText(s: string) {
    2 <= |s| <= 3 && forall k :: 0 <= k < |s| ==> ('A' <= s[k] <= 'Z' || '0' <= s[k] <= '9')
  }

  /**
    Text that holds no parenthesis; only its two ends need be letters or
    digits, so inner spaces are allowed.
  */
  predicate IsWordsText(s: string) {
    && |s| > 0
    && (('A' <= s[0] <= 'Z') || ('a' <= s[0] <= 'z') || ('0' <= s[0] <= '9'))
    && (('A' <= s[|s| - 1] <= 'Z') || ('a' <= s[|s| - 1] <= 'z') || ('0' <= s[|s| - 1] <= '9'))
    && forall k :: 0 <= k < |s| ==> s[k] != '(' && s[k] != ')'
  }

  predicate PlainControlName(c: ControlName) {
    IsMnemonicText(c.mnemonic) && IsWordsText(c.description)
  }

  /**
    All 32 control names and DEL are plain. The proof checks the string
    literals two entries at a time (`ControlNamesPlainFrom0` … `From30`),
    because one quantified check over all 32 literals is too costly for the
    solver.
  */
  lemma ControlNamesPlain()
    ensures |ControlNames| == 32
    ensures forall i :: 0 <= i < 32 ==> PlainControlName(ControlNames[i])
    ensures PlainControlName(DeleteName)
  {
    ControlNamesPlainFrom0();
    ControlNamesPlainFrom2();
    ControlNamesPlainFrom4();
    ControlNamesPlainFrom6();
    ControlNamesPlainFrom8();
    ControlNamesPlainFrom10();
    ControlNamesPlainFrom12();
    ControlNamesPlainFrom14();
    ControlNamesPlainFrom16();
    ControlNamesPlainFrom18();
    ControlNamesPlainFrom20();
    ControlNamesPlainFrom22();
    ControlNamesPlainFrom24();
    ControlNamesPlainFrom26();
    ControlNamesPlainFrom28();
    ControlNamesPlainFrom30();
  }

  lemma ControlNamesPlainFrom0()
    ensures forall i :: 0 <= i < 2 ==> PlainControlName(ControlNames[i])
  {
  }

  lemma ControlNamesPlainFrom2()
    ensures forall i :: 2 <= i < 4 ==> PlainControlName(ControlNames[i])
  {
  }

  lemma ControlNamesPlainFrom4()
    ensures forall i :: 4 <= i < 6 ==> PlainControlName(ControlNames[i])
  {
  }

  lemma ControlNamesPlainFrom6()
    ensures forall i :: 6 <= i < 8 ==> PlainControlName(ControlNames[i])
  {
  }

  lemma ControlNamesPlainFrom8()
    ensures forall i :: 8 <= i < 10 ==> PlainControlName(ControlNames[i])
  {
  }

  lemma ControlNamesPlainFrom10()
    ensures forall i :: 10 <= i < 12 ==> PlainControlName(ControlNames[i])
  {
  }

  lemma ControlNamesPlainFrom12()
    ensures forall i :: 12 <= i < 14 ==> PlainControlName(ControlNames[i])
  {
  }

  lemma ControlNamesPlainFrom14()
    ensures forall i :: 14 <= i < 16 ==> PlainControlName(ControlNames[i])
  {
  }

  lemma ControlNamesPlainFrom16()
    ensures forall i :: 16 <= i < 18 ==> PlainControlName(ControlNames[i])
  {
  }

  lemma ControlNamesPlainFrom18()
    ensures forall i :: 18 <= i < 20 ==> PlainControlName(ControlNames[i])
  {
  }

  lemma ControlNamesPlainFrom20()
    ensures forall i :: 20 <= i < 22 ==> PlainControlName(ControlNames[i])
  {
  }

  lemma ControlNamesPlainFrom22()
    ensures forall i :: 22 <= i < 24 ==> PlainControlName(ControlNames[i])
  {
  }

  lemma ControlNamesPlainFrom24()
    ensures forall i :: 24 <= i < 26 ==> PlainControlName(ControlNames[i])
  {
  }

  lemma ControlNamesPlainFrom26()
    ensures forall i :: 26 <= i < 28 ==> PlainControlName(ControlNames[i])
  {
  }

  lemma ControlNamesPlainFrom28()
    ensures forall i :: 28 <= i < 30 ==> PlainControlName(ControlNames[i])
  {
  }

  lemma ControlNamesPlainFrom30()
    ensures forall i :: 30 <= i < 32 ==> PlainControlName(ControlNames[i])
  {
  }

  /** A mnemonic literal is a good main part once written as code units. */
  lemma MnemonicUnits(s: string)
    requires IsMnemonicText(s)
    ensures IsMnemonic(Js(s)) && GoodMain(Js(s))
  {
    NoOpenParenNoSeparator(Js(s));
  }

  /** A words literal is a good, non-empty description once written as code units. */
  lemma WordsUnits(s: string)
    requires IsWordsText(s)
    ensures |Js(s)| > 0 && GoodDescription(Js(s))
  {
    var u := Js(s);
    NoOpenParenNoSeparator(u);
  }

  // ----------------------------------------------- names of the entries

  /** The name of control code i (0 to 31, or 127). */
  function ControlOf(i: int): ControlName
    requires IsControlCode(i)
  {
    if i == 127 then DeleteName else ControlNames[i]
  }

  /** A one-unit name that is not white space parses to itself with no description. */
  lemma ParseSingleUnit(u: CodeUnit)
    requires !IsWhiteSpace(u)
    ensures ParseUnicodeChar([u]) == Parsed([u], None)
  {
    forall j | 0 <= j <= 1
      ensures !OccursAt([u], Sep, j)
    {
    }
  }

  /** A control code's name parses into its mnemonic and its description. */
  lemma ParseControlEntry(i: int)
    requires IsControlCode(i)
    ensures EntryName(i) == Display(ControlOf(i))
    ensures ParseUnicodeChar(EntryName(i))
      == Parsed(Js(ControlOf(i).mnemonic), Some(Js(ControlOf(i).description)))
    ensures IsMnemonic(ParseUnicodeChar(EntryName(i)).main)
  {
    ControlNamesPlain();
    var c := ControlOf(i);
    assert PlainControlName(c);
    MnemonicUnits(c.mnemonic);
    WordsUnits(c.description);
    ParseComposeWithDescription(Js(c.mnemonic), Js(c.description));
  }

  /**
    The classification of the extended table: codes 0-31 and 127 read
    "MNEMONIC (Description)" and are the only ones with a description, 32 reads
    "SPACE", and every other code below 130 is its own character.
  */
  lemma ParseTableEntry(i: int)
    requires 0 <= i < 130
    ensures ParseUnicodeChar(GetUnicodeChar(i)).description.Some? <==> IsControlCode(i)
    ensures IsControlCode(i) ==> IsMnemonic(ParseUnicodeChar(GetUnicodeChar(i)).main)
    ensures IsControlCode(i) ==> Compose(ParseUnicodeChar(GetUnicodeChar(i))) == GetUnicodeChar(i)
    ensures i == 32 ==> ParseUnicodeChar(GetUnicodeChar(i)) == Parsed(Js("SPACE"), None)
    ensures !IsControlCode(i) && i != 32 ==>
      ParseUnicodeChar(GetUnicodeChar(i)) == Parsed([i as CodeUnit], None)
  {
    if IsControlCode(i) {
      ParseControlEntry(i);
    } else if i == 32 {
      NoOpenParenNoSeparator(Js("SPACE"));
      TrimOfTrimmed(Js("SPACE"));
    } else {
      assert EntryName(i) == [i as CodeUnit];
      ParseSingleUnit(i as CodeUnit);
    }
  }

  /** A name of the form "U+…". */
  predicate IsCodePointLabel(s: JsString) {
    |s| >= 2 && s[0] == 0x55 && s[1] == 0x2B
  }

  /** The "U+" fallback of the initialiser is never taken for the table's own indices. */
  lemma CodePointLabelUnreachable(i: nat)
    requires i <= 130
    ensures !IsCodePointLabel(EntryName(i))
  {
    if IsControlCode(i) {
      ControlNamesPlain();
      assert IsMnemonicText(ControlOf(i).mnemonic);
      ParseControlEntry(i);
      DisplaySecondUnit(ControlOf(i));
    } else if i == 32 {
      assert EntryName(i)[0] == 0x53;
    }
  }

  /** The second unit of a displayed control name is the mnemonic's second letter or digit. */
  lemma DisplaySecondUnit(c: ControlName)
    requires IsMnemonicText(c.mnemonic)
    ensures !IsCodePointLabel(Display(c))
  {
    assert Display(c)[1] == Js(c.mnemonic)[1];
  }

  /**
    Past index 130 the initialiser writes "U+" and the index in upper-case
    hexadecimal: the same fact as the last clauses of `EntryName`'s contract,
    stated next to `CodePointLabelUnreachable` in terms of `IsCodePointLabel`.
  */
  lemma CodePointLabelBeyondTable(i: nat)
    requires i > 130
    ensures IsCodePointLabel(EntryName(i))
    ensures var digits := EntryName(i)[2..];
      (forall k :: 0 <= k < |digits| ==> IsHexDigit(digits[k])) && HexValue(digits) == i
  {
    assert EntryName(i)[2..] == HexUpper(i);
  }

  // ------------------------------------------------------- slide labels

  /**
    The name `NumToTextMap` hands to `parseUnicodeChar` for slide `num`:
    None where it reads `normalMap` past its end and gets `undefined`.
  */
  function SlideLabel(num: int, unicode: bool): (r: Option<JsString>)
    ensures r.Some? <==> (unicode || 0 <= num < 26)
    ensures unicode ==> r == Some(GetUnicodeChar(num))
  {
    if unicode then Some(GetUnicodeChar(num))
    else if 0 <= num < |NormalMap| then Some(NormalMap[num])
    else None
  }

  /**
    What slide `num` shows. None is the TypeError `parseUnicodeChar` throws on the
    `undefined` that `normalMap[num]` gives outside 0..25.
  */
  function SlideCard(num: int, unicode: bool): (r: Option<Parsed>)
    ensures r.Some? <==> (unicode || 0 <= num < 26)
    ensures r.Some? ==> r.value == ParseUnicodeChar(SlideLabel(num, unicode).value)
  {
    match SlideLabel(num, unicode)
    case None => None
    case Some(name) => Some(ParseUnicodeChar(name))
  }

  /**
    Every slide the carousel renders has a card: the render loop and the lookup
    read the same `unicode` flag, so the letter table is never read past its end.
  */
  lemma RenderedSlidesHaveCards(num: int, unicode: bool)
    requires 0 <= num < SlideCount(unicode)
    ensures SlideCard(num, unicode).Some?
    ensures !unicode ==> SlideCard(num, unicode) == Some(Parsed(NormalMap[num], None))
    ensures !unicode ==> SlideCard(num, unicode).value.main[0] as int == Alphabet[num] as int
    ensures unicode ==> (SlideCard(num, unicode).value.description.Some? <==> IsControlCode(num))
  {
    if unicode {
      ParseTableEntry(num);
    } else {
      NormalMapIsAlphabet();
      ParseSingleUnit(NormalMap[num][0]);
      assert NormalMap[num] == [NormalMap[num][0]];
    }
  }

  // ----------------------------------------------------------- examples

  /** "BEL (Bell)" is the name of code 7 and parses to ("BEL", "Bell"). */
  lemma BellExample()
    ensures GetUnicodeChar(7) == Js("BEL (Bell)")
    ensures ParseUnicodeChar(GetUnicodeChar(7)) == Parsed(Js("BEL"), Some(Js("Bell")))
  {
    BellName();
    ParseControlEntry(7);
  }

  lemma BellName()
    ensures ControlOf(7) == ControlName("BEL", "Bell")
    ensures EntryName(7) == Js("BEL (Bell)")
  {
    assert ControlNames[7] == ControlName("BEL", "Bell");
    BellDisplay();
  }

  lemma BellDisplay()
    ensures Display(ControlName("BEL", "Bell")) == Js("BEL (Bell)")
  {
    var bel: JsString := [0x42, 0x45, 0x4C];
    var bell: JsString := [0x42, 0x65, 0x6C, 0x6C];
    assert Js("BEL") == bel;
    assert Js("Bell") == bell;
    assert Js("BEL (Bell)") == bel + Sep + bell + [CloseParen];
  }

  /** "A" and "(" parse to themselves with no description. */
  lemma SingleCharacterExamples()
    ensures ParseUnicodeChar(Js("A")) == Parsed(Js("A"), None)
    ensures ParseUnicodeChar(GetUnicodeChar(40)) == Parsed(Js("("), None)
  {
    ParseSingleUnit(0x41);
    assert Js("A") == [0x41];
    ParseTableEntry(40);
    assert Js("(") == [40];
  }
}
